=== FILE: README.md ===
# sdre-image-api: the image synchronisation and recommendation core in Dafny

This project models the decision logic of `src/index.ts` of the sdre-image-api
service as pure Dafny functions. That logic:

- mirrors the container images of the `sdr-enthusiasts` GitHub organisation into a store;
- answers "which image should I run for name X".

It covers five pieces:

- **Tag classification** (`TagClassifier`). From the tags found for a repository it derives:
  - the image tag: the first `latest-build-*` tag, else `latest`;
  - the pinned flag;
  - the trixie tag: the first `trixie-latest-*` tag, else `trixie-latest`;
  - whether a trixie tag was found;
  - the two `ghcr.io/sdr-enthusiasts/<name>:<tag>` pull references. `url_trixie` is empty when no trixie tag was found.
- **`parseData` and the version walker `getPaginatedData`** (`PackageVersions`).
  - Response bodies are a tagged union: a bare array, a falsy value, or a wrapped object with its entries in key order.
  - The upstream API is the sequence of responses the walk receives. Request number k gets `responses[k]`, and a request past the end fails.
  - The `Link` header is reduced to its optional `rel="next"` URL.
  - The walk returns either the tags collected, or the TypeError raised when a normalised body cannot be iterated. Both outcomes carry the list of URLs requested.
- **The synchronisation cycle `update_images`** (`ImageSync`). It is a pure transition on a store value: the `images` table plus the optional last-sync time. Time is integer milliseconds. The environment (`Env`) supplies:
  - the current time;
  - `skip_wait`;
  - whether the API client is initialised;
  - the ignore set;
  - the organisation's repository list;
  - each package's version responses;
  - which store reads reject.

  The outcome holds the new store, the upstream URLs requested, and the delay after which the cycle schedules itself again. The delay is None when the cycle ends in an exception.
- **The recommendation resolver** (`Recommend`). The fold that the four `/recommended` endpoints each carry a copy of is modelled once as `Choose`. An independent reference definition, `IsChoice`, sits beside it. The "all" endpoints group by name in first-appearance order. The trixie endpoints first drop records whose `url_trixie` is empty. The endpoints' store query is an input, with `None` for a read that rejected.
- **Records** (`Schema`): one `Image` per row of the `images` table.

Behaviour of the code that is easy to miss, and that the model keeps:

- The walker does not always return normally. A wrapped object whose only keys are the three metadata keys normalises to `undefined`, and iterating it throws. In `update_images` that exception ends the cycle: nothing reschedules it, and repositories later in the list are not visited. `PackageVersions.Walk` returns `Crashed` for this case; `ImageSync.SyncReposStopsAtCrash` shows that the loop stops there with the records added before it, and `ImageSync.Cycle` then returns no retry delay.
- The existing-record lookup filters on `tag_trixie = ""` when no trixie tag was found (src/index.ts:571). The record it creates stores `trixie-latest` (src/index.ts:607). So a rerun over unchanged upstream data adds nothing only when the repository has a trixie tag; otherwise every cycle adds another record for it. `ImageSync.UpsertIdempotentWithTrixie`, `ImageSync.RerunAddsNothing` and `ImageSync.UpsertDuplicatesWithoutTrixie` state both sides.
- Tags collected by the walker are not deduplicated. A marked element contributes all of its tags, in order.
- A lookup that rejects is logged and treated like an empty result, so the record is created.
- A failed read of the last-sync time lets the cycle proceed as if there were none.
- The walker has no page limit. A run of successful empty pages that keep carrying next links is followed for as long as it lasts, and a next link that points back to an empty page already read makes the source loop forever (src/index.ts:627-672). In the model the upstream API is a finite sequence of responses, and a request past its end fails, so every modelled walk ends.

## Model

| member | source | states |
|---|---|---|
| TagClassifier.FirstWithPrefix | src/index.ts:538-552 | The scan-and-break loop finds nothing exactly when no tag starts with the prefix (case-sensitive); otherwise it finds the first such tag in list order |
| TagClassifier.Classify | src/index.ts:533-552 | Pinned iff some tag starts with `latest-build-`, the image tag then being the first such tag and `latest` otherwise; a trixie tag is found iff some tag starts with `trixie-latest-`, the trixie tag then being the first such tag and `trixie-latest` otherwise |
| TagClassifier.Url | src/index.ts:558 | A pull reference is `ghcr.io/sdr-enthusiasts/<name>:` followed by exactly the tag |
| TagClassifier.TrixieUrl | src/index.ts:554-556 | `url_trixie` is empty exactly when no trixie tag was found; otherwise it is a pull reference of the repository whose tag part is the trixie tag |
| TagClassifier.PinnedBuildExample | src/index.ts:538-544 | A `latest-build-42` tag wins over a plain `latest` later in the list and sets the pinned flag |
| TagClassifier.DefaultsExample | src/index.ts:533-556 | A list with only `latest` gives the defaults, not pinned, no trixie tag and an empty `url_trixie` |
| PackageVersions.StripMetadata | src/index.ts:692-694 | After deleting the three metadata keys no metadata key remains; nothing remains iff every key was a metadata key; the first remaining entry is the first non-metadata entry |
| PackageVersions.ParseData | src/index.ts:678-700 | A bare array is returned unchanged; a falsy body becomes the empty array; a wrapped object yields the value of its first non-metadata key, or undefined (modelled as falsy) when only metadata keys are present |
| PackageVersions.PageItems | src/index.ts:644-646 | A normalised page can be iterated exactly when `parseData` gives an array: a bare array gives its elements, a falsy body no elements, and a wrapped object with only metadata keys cannot be iterated (the `for ... of` throws) |
| PackageVersions.Marked | src/index.ts:647-653 | An element is marked exactly when `latest` or `trixie-latest` is among its tags |
| PackageVersions.Contribution | src/index.ts:647-656 | An element contributes nothing unless it has tags and is marked; a marked element contributes all of its tags, in order; a tag is contributed exactly when the element is marked and has it |
| PackageVersions.Collect | src/index.ts:645-658 | A tag is collected from a page iff it belongs to an element one of whose tags is `latest` or `trixie-latest`; an empty page adds nothing |
| PackageVersions.CollectAppend | src/index.ts:646-658 | The contributions of a page concatenate in element order: collecting two runs of elements is collecting each and appending |
| PackageVersions.MarkedElementContributesAll | src/index.ts:649-656 | A marked element contributes every one of its tags, not only the marker |
| PackageVersions.Walk | src/index.ts:627-675 | From request k on: one request plus one per consecutive successful empty page with a next link; each URL after the first is the previous response's next link; the walk throws iff the last page requested succeeded but cannot be iterated; otherwise the result is the accumulated tags followed by the last page's contribution |
| PackageVersions.FetchTags | src/index.ts:621-676 | The same for a whole walk: the result is the contribution of the page the walk stopped on (nothing when that request failed) |
| PackageVersions.NextFollowedOnlyAfterEmptyPage | src/index.ts:660-672 | Every request but the last received a successful empty page carrying a next link, and the following request went to that link |
| PackageVersions.RequestCountBound | src/index.ts:627-672 | The number of requests is at most one plus the number of leading empty pages |
| PackageVersions.FollowRunBound | src/index.ts:660-672 | The run of pages read past from request k on is no longer than the run of empty pages starting there |
| PackageVersions.StopsAfterFirstNonEmptyPage | src/index.ts:660-672 | When the first page is not empty it is the only page requested, whatever its link header says, and its marked elements give the result |
| PackageVersions.FailureYieldsAccumulated | src/index.ts:635-642 | When the last request failed, the walk returns what had accumulated, which is nothing because only empty pages came before |
| PackageVersions.TagsComeFromMarkedElements | src/index.ts:646-658 | Every tag returned is carried by a marked element of the last page requested |
| ImageSync.Lookup | src/index.ts:566-573 | The lookup's rows are exactly the stored records with the given name, tag and trixie tag |
| ImageSync.Upsert | src/index.ts:564-613 | The store grows by at most one record, appended; it grows iff the lookup rejected or no record matches (name, tag, the tag_trixie filter value); a created record carries the classified tags, both pull references, the current time as created and modified date, the fixed release notes and `stable = true` |
| ImageSync.Gated | src/index.ts:449-486 | The cycle is skipped only when `skip_wait` is off, the last-sync read succeeded, a last sync exists and it is under an hour old; the retry delay is then positive |
| ImageSync.LookupTrixie | src/index.ts:571 | The lookup filters on the trixie tag when one was found and on "" otherwise, so it matches the trixie tag a created record stores exactly when a trixie tag was found |
| ImageSync.ProcessRepo | src/index.ts:512-614 | One loop iteration appends at most one record. It appends exactly when the repository is not ignored, its walk finishes with tags, and the lookup for their key rejects or finds no row. A walk that throws aborts without touching the store. An added record is created for that repository from the tags its walk found |
| ImageSync.ProcessRepoRecords | src/index.ts:512-614 | After one iteration the repository needs no further record: it is ignored, its walk threw or found no tags, its lookup key is present, or a record was just created from its tags |
| ImageSync.SyncRepos | src/index.ts:512-615 | The loop only appends, at most one record per listed repository in total, and ends in an exception iff some repository that is not ignored has a walk that throws; at the first such walk it stops, so later repositories add nothing (`ImageSync.SyncReposStopsAtCrash`) |
| ImageSync.SyncReposHeadCrash | src/index.ts:512-517 | When the first listed repository is not ignored and its walk throws, the loop ends in the exception with the store as it was |
| ImageSync.SyncReposStopsAtCrash | src/index.ts:512-615 | When the walk of repository j throws and no earlier one did, the loop ends in the exception with exactly the records the loop over the first j repositories adds; repositories after j are never visited |
| ImageSync.SyncReposStopsAtFirstCrash | src/index.ts:512-615 | For every position of the first throwing walk, the store after the loop equals the store after the loop over the repositories before it |
| ImageSync.SyncReposCreates | src/index.ts:512-613 | Every record the loop adds belongs to a listed, non-ignored repository whose walk found tags, and is derived from those tags |
| ImageSync.SyncReposFresh | src/index.ts:512-613 | Every record the loop adds was created because its repository's lookup rejected or found no row among the records before it: unless its lookup rejected, no record is added while its key is present |
| ImageSync.SyncReposRecords | src/index.ts:512-614 | Every listed repository before the first walk that throws ends up needing no further record: ignored, no tags, its lookup key was present, or a record describing its tags was created |
| ImageSync.Cycle | src/index.ts:438-619 | No client: nothing requested, store unchanged, retry in one hour; a last sync read successfully and under an hour old (and no `skip_wait`) skips the cycle with no request, the store unchanged and a retry after the rest of the hour; otherwise the last-sync time becomes now, existing records are kept, each added record was created from its repository's tags while its key was absent or its lookup rejected, every repository the loop reached needs no further record, a walk that throws ends the loop with exactly the records added before it, and the cycle reschedules in one hour unless a walk threw |
| ImageSync.CreatedRecordsAreStable | src/index.ts:599-612 | Every record a cycle creates is stable |
| ImageSync.NoRecordForIgnoredOrTagless | src/index.ts:512-521 | An ignored repository, or one whose walk found no tags, gets no record |
| ImageSync.UpsertIdempotentWithTrixie | src/index.ts:566-613 | With a trixie tag, running the lookup-and-create step a second time finds the record the first run created and adds nothing |
| ImageSync.UpsertDuplicatesWithoutTrixie | src/index.ts:566-612 | Without a trixie tag, the lookup filters on an empty trixie tag while the record stores `trixie-latest`, so the second run creates a second record |
| ImageSync.RecordedSettles | src/index.ts:564-613 | For a repository whose walk finishes, whose lookup does not reject and that has a trixie tag whenever it has tags, needing no further record means its lookup key is present |
| ImageSync.SyncReposSettles | src/index.ts:512-615 | After a loop over repositories that all finish, with no failing lookup and a trixie tag whenever tags were found, every repository's record is in place |
| ImageSync.SyncReposSettledNoop | src/index.ts:512-615 | A loop over repositories whose records are in place adds nothing |
| ImageSync.RerunAddsNothing | src/index.ts:438-619 | Under those conditions a second cycle over unchanged upstream data adds no record, whatever its time and `skip_wait` |
| Recommend.Replaces | src/index.ts:194-204 | A candidate displaces the record held when it is stable and the held one is not, or when both have the same stability and the candidate was modified later; on equal dates, and for an unstable candidate against a stable record, the held record stays |
| Recommend.Fold | src/index.ts:189-207 | The fold ends on the reference choice: no candidate replaces the kept record, and the kept record replaces every candidate before it |
| Recommend.Choose | src/index.ts:182-211 | No record is kept iff there are no candidates; otherwise the kept record is the reference choice |
| Recommend.ChoiceRule | src/index.ts:189-207 | The kept record is a candidate; it is stable when any candidate is (an unstable record never displaces a stable one); no candidate of the same stability was modified later; on equal modification time the earliest candidate in input order is kept |
| Recommend.ChoiceUnique | src/index.ts:189-207 | The reference choice picks a single position |
| Recommend.StableBeatsRecencyExample | src/index.ts:194-204 | A newer stable record wins over an even newer unstable one |
| Recommend.Candidates | src/index.ts:185-187 | A record is a candidate iff it has the name and, for the trixie variant, a non-empty `url_trixie` |
| Recommend.TrixieFilter | src/index.ts:329-332 | The trixie by-name loop considers exactly the records with a non-empty `url_trixie` |
| Recommend.OnName | src/index.ts:304-312 | The by-name query returns exactly the records of that name |
| Recommend.CandidatesAppend | src/index.ts:185-187 | The name filter keeps the records in input order: filtering a concatenation is concatenating the filtered parts |
| Recommend.TrixieFilterAppend | src/index.ts:329-332 | The trixie filter keeps the records in input order in the same way |
| Recommend.TrixieFilterEmpty | src/index.ts:329-353 | The trixie filter keeps nothing exactly when no row has a non-empty `url_trixie` |
| Recommend.CandidatesSplit | src/index.ts:185-187 | Filtering by name and then by `url_trixie` gives the combined filter of the "all" variants, in the same order |
| Recommend.Names | src/index.ts:173-179 | A name is listed iff some record has it |
| Recommend.NamesInAppearanceOrder | src/index.ts:173-179 | The names are listed once each, in order of first appearance |
| Recommend.KeptNames | src/index.ts:209-211 | A name is emitted iff it is listed and has a candidate |
| Recommend.KeptNamesInOrder | src/index.ts:181-212 | Omitting the names without a candidate keeps the others in first-appearance order |
| Recommend.KeptNamesAll | src/index.ts:247-276 | Without the trixie filter every listed name has a candidate, so none is omitted |
| Recommend.Emit | src/index.ts:181-212 | The loop over names emits, for each name with a candidate and in list order, that name's choice |
| Recommend.RecommendAll | src/index.ts:218-279 | Both "all" endpoints (trixie variant at src/index.ts:150-216): a failed or empty read gives no records; each record emitted is a row, passes the filter and is its name's choice; a name appears iff one of its rows passes the filter; names appear once each in first-appearance order; without the filter every name appears |
| Recommend.EmitByAppearance | src/index.ts:171-212 | The loop over all names emits rows that pass the filter, one per name with a passing row, in first-appearance order |
| Recommend.RecommendByName | src/index.ts:359-411 | Both by-name endpoints (trixie variant at src/index.ts:301-357): at most one record; none for a failed or empty read or when every row is filtered out; otherwise the fold's choice among the rows that pass |
| Recommend.ByNameChooses | src/index.ts:327-353 | For a name that has records, the by-name endpoints answer the choice among that name's candidates |
| Recommend.NoCandidates | src/index.ts:185-187 | A name none of whose rows passes the filter has no candidates |
| Recommend.ByNameAgreesWithAll | src/index.ts:301-411 | For any name with records, when the by-name query returns the name's rows in the order the "all" query listed them, the by-name endpoint answers exactly the record the matching "all" endpoint emits for that name, or nothing when it emits none |
| Recommend.TiedRowsOrderMatters | src/index.ts:194-204 | Two distinct rows of one name with equal stability and modification date: the "all" endpoint over `[a, b]` emits `a`, while a by-name query returning `[b, a]` answers `b`, since the fold keeps the earlier of tied rows |

## Left out

- HTTP routing, the non-recommended list endpoints and response wiring: thin pass-throughs of store queries with no decision logic.
- The store itself. It is an in-memory sequence. A rejected read enters as an input (a `None` query result, `lastSyncReadFails`, `lookupFails`) and is handled as the code handles it.
- The clock. Every `new Date()` of a cycle (src/index.ts:460, 495, 559-560) reads one `Env.now`, so the gate's current time, the new last-sync time and a created record's creation and modification dates are all equal in the model. The source reads the clock separately each time, and the later readings may be later.
- Rejected writes to the store are not modelled. This covers the unguarded `lastUpdated.create` and `images.create`, which would end the cycle with an exception. The guarded `deleteMany` is also reduced to "the last-sync time is replaced".
- The GitHub App authentication, `octokit.paginate` over the organisation's repositories, and the rate-limit probe are external library calls. The repository list is an input, and the two calls appear only as requested URLs.
- A rejection of the rate-limit probe or of the repository listing (src/index.ts:500, 503) is not modelled. Neither call is guarded: in the source such a rejection ends the cycle after the last-sync time was replaced, with no repository visited and nothing rescheduled. `ImageSync.Cycle` always proceeds to the loop.
- The regular expression that extracts the next URL from the `Link` header: a response carries its optional next URL directly.
- The contents of `ignored.js` are not part of this model: the ignore set is an input.
- Timers, the keep-alive loop, signal handlers and process exit are not modelled. A reschedule is the returned delay. A second timer racing with an in-progress cycle is not modelled, because the cycle is one transition.
- The logger and its configuration: logging is output only.
- Floating-point minutes in the freshness gate. The gate compares integer milliseconds with 3 600 000, and the retry delay is 3 600 000 minus the elapsed milliseconds. This is the same rule without the rounding of the source's floating-point arithmetic.
- Store ordering. The endpoints' queries order by name only; the model takes the rows in whatever order the query returned them. The properties of each endpoint on its own hold for any order; the agreement between the by-name and "all" endpoints does not (next line).
- Recommend.ByNameAgreesWithAll: agreement is proved only when the by-name query returns the name's rows in the relative order the "all" query listed them. The two are separate queries ordered only by `name` (src/index.ts:219-224 and 362-370, 153-158 and 304-312), so the store does not guarantee that order, and rows tied on stability and modification date can make the two endpoints answer different records (`Recommend.TiedRowsOrderMatters`).
- `Date` values: modification and creation times are integers, compared as the source compares `Date` values.
- The `id` column of the `images` table: `Schema.Image` has no identifier, since no decision of the core reads it.
- Response payloads outside the three body shapes.
  - A wrapped value that is a string, a number or another non-array value is not modelled, apart from one case. A wrapped `null`, `undefined`, `false` or `0` is modelled as the `Falsy` body, and `for ... of` over it throws.
  - A wrapped empty string is not modelled. `for ... of ""` iterates nothing, so the source treats that page as empty and follows its next link. A wrapped non-empty string would be iterated character by character and throw on the first element.
  - Version elements without `metadata.container` are not modelled; the source would throw on them.
- The repository-root `index.ts` liveness endpoint is not part of this model.
- PackageVersions.Collect: its contract states membership; the order of the contributions is stated by `PackageVersions.CollectAppend` and the function's definition.
- Recommend.Names: its contract states membership only; the appearance order is proved separately in `Recommend.NamesInAppearanceOrder`.

=== FILE: image_sync.dfy ===
/**
 * One synchronisation cycle (`update_images`) as a pure transition on an
 * in-memory store: the 60-minute freshness gate, the replacement of the
 * last-sync time, and for every repository of the organisation the walk of its
 * container versions, the tag classification and the create-unless-present step.
 *
 * Time is integer milliseconds. The organisation's repository list, the version
 * responses of each package, the ignore set and the outcome of the store reads
 * that can fail are all inputs (`Env`). The cycle's result carries the URLs it
 * requested upstream and the delay after which it schedules itself again.
 */
module ImageSync {
  import opened Optional
  import opened Schema
  import opened TagClassifier
  import opened PackageVersions

  /** Sixty minutes in milliseconds: the freshness window and the regular period. */
  const Hour := 60 * 60 * 1000
  const ReleaseNotes := "No release notes available"
  const RateLimitPath := "/rate_limit"
  const ReposPath := "/orgs/sdr-enthusiasts/repos"

  /** The `images` table and the `lastUpdated` singleton. */
  datatype Store = Store(images: seq<Image>, lastSync: Option<int>)

  datatype Env = Env(
    now: int,
    skipWait: bool,                       // the cycle's argument
    clientReady: bool,                    // the API client has been initialised
    ignored: set<string>,                 // IGNORED_REPOS
    repos: seq<string>,                   // names listed by the organisation query
    versions: map<string, seq<Response>>, // what each package's versions endpoint answers
    lastSyncReadFails: bool,              // the read of the last-sync time rejects
    lookupFails: set<string>              // repositories whose existing-record lookup rejects
  )

  /** The state after the cycle, the URLs it requested, and when it runs again
      (None when it aborted on an exception). */
  datatype Outcome = Outcome(store: Store, requests: seq<string>, retryIn: Option<int>)

  /** The progress of the loop over repositories. */
  datatype Pass = Pass(images: seq<Image>, requests: seq<string>, aborted: bool)

  function VersionsPath(name: string): string {
    "/orgs/sdr-enthusiasts/packages/container/" + name + "/versions"
  }

  /** The walk of one repository's container versions; an unknown package fails
      its first request. */
  function Fetched(env: Env, name: string): Fetch {
    FetchTags(VersionsPath(name), if name in env.versions then env.versions[name] else [])
  }

  /** The freshness gate: a last sync less than an hour ago, read successfully,
      and the cycle was not told to skip the wait. */
  predicate Gated(store: Store, env: Env): (r: bool)
    ensures env.skipWait || env.lastSyncReadFails || store.lastSync.None? ==> !r
    ensures store.lastSync.Some? && env.now - store.lastSync.value >= Hour ==> !r
    ensures r ==> 0 < Hour - (env.now - store.lastSync.value)
  {
    && !env.skipWait
    && !env.lastSyncReadFails
    && store.lastSync.Some?
    && env.now - store.lastSync.value < Hour
  }

  /** The tag_trixie value the existing-record lookup filters on: the trixie tag
      when one was found and "" otherwise, so it equals the stored trixie tag
      exactly when a trixie tag was found (or the stored one is ""). */
  function LookupTrixie(c: Classification): (r: string)
    ensures r == "" || r == c.trixieTag
    ensures r == c.trixieTag <==> c.foundTrixie || c.trixieTag == ""
  {
    if c.foundTrixie then c.trixieTag else ""
  }

  /** Some stored record has this name, tag and trixie tag. */
  ghost predicate KeyPresent(images: seq<Image>, name: string, tag: string, tagTrixie: string) {
    exists i :: 0 <= i < |images| && images[i].name == name && images[i].tag == tag && images[i].tagTrixie == tagTrixie
  }

  /** The rows the store's findMany returns for the lookup. */
  function Lookup(images: seq<Image>, name: string, tag: string, tagTrixie: string): (rows: seq<Image>)
    ensures forall x :: x in rows <==> x in images && x.name == name && x.tag == tag && x.tagTrixie == tagTrixie
  {
    if |images| == 0 then []
    else
      var rest := Lookup(images[1..], name, tag, tagTrixie);
      assert forall x :: x in images <==> x == images[0] || x in images[1..];
      var x := images[0];
      if x.name == name && x.tag == tag && x.tagTrixie == tagTrixie then [x] + rest else rest
  }

  /** The record a cycle creates for repository `name` from the tags its walk found. */
  ghost predicate DescribesRelease(img: Image, name: string, tags: seq<string>, now: int) {
    var c := Classify(tags);
    && img.name == name
    && img.stable
    && img.createdDate == now && img.modifiedDate == now
    && img.tag == c.tag && img.pinned == c.pinned && img.tagTrixie == c.trixieTag
    && img.url == Url(name, c.tag)
    && img.urlTrixie == TrixieUrl(name, c)
    && img.releaseNotes == ReleaseNotes
  }

  /** Classification, lookup and create for one repository whose walk found tags. */
  function Upsert(images: seq<Image>, name: string, tags: seq<string>, now: int, lookupFails: bool): (r: seq<Image>)
    ensures images <= r && |r| <= |images| + 1
    ensures |r| == |images| + 1 <==>
      lookupFails || !KeyPresent(images, name, Classify(tags).tag, LookupTrixie(Classify(tags)))
    ensures |r| == |images| + 1 ==> DescribesRelease(r[|images|], name, tags, now)
  {
    var c := Classify(tags);
    var existing := !lookupFails &&
      exists x :: x in Lookup(images, name, c.tag, LookupTrixie(c)) && x.tag == c.tag;
    if existing then images
    else
      images + [Image(name, Url(name, c.tag), TrixieUrl(name, c), now, now,
                      c.tag, c.trixieTag, ReleaseNotes, true, c.pinned)]
  }

  /** A record created for repository `name`: it is not ignored, its walk finished
      with at least one tag, and the record is derived from those tags. */
  ghost predicate CreatedFrom(img: Image, name: string, env: Env) {
    && name !in env.ignored
    && Fetched(env, name).Finished?
    && |Fetched(env, name).tags| > 0
    && DescribesRelease(img, name, Fetched(env, name).tags, env.now)
  }

  /** A record the loop over `repos` may have added. */
  ghost predicate CreatedFor(img: Image, repos: seq<string>, env: Env) {
    img.name in repos && CreatedFrom(img, img.name, env)
  }

  /** The repository is not ignored and its walk throws. */
  predicate Crashes(env: Env, name: string) {
    name !in env.ignored && Fetched(env, name).Crashed?
  }

  /** Some repository of the list makes its walk throw. */
  ghost predicate AnyCrash(repos: seq<string>, env: Env) {
    exists i :: 0 <= i < |repos| && Crashes(env, repos[i])
  }

  /** No repository before position j makes its walk throw: the loop reaches position j. */
  ghost predicate NoCrashBefore(repos: seq<string>, env: Env, j: int) {
    forall m :: 0 <= m < j && m < |repos| ==> !Crashes(env, repos[m])
  }

  /** Visiting repository `name` with the store holding `images` creates a record:
      it is not ignored, its walk found tags, and the lookup for their key rejects
      or finds no row. */
  ghost predicate Creates(images: seq<Image>, name: string, env: Env) {
    var f := Fetched(env, name);
    && name !in env.ignored && f.Finished? && |f.tags| > 0
    && (name in env.lookupFails || !KeyPresent(images, name, Classify(f.tags).tag, LookupTrixie(Classify(f.tags))))
  }

  /** Repository `name` needs no further record: it is ignored, its walk threw or
      found no tags, the lookup key of its tags is present, or a record was created
      for it from those tags. */
  ghost predicate Recorded(images: seq<Image>, name: string, env: Env) {
    var f := Fetched(env, name);
    || name in env.ignored || f.Crashed? || |f.tags| == 0
    || KeyPresent(images, name, Classify(f.tags).tag, LookupTrixie(Classify(f.tags)))
    || exists i :: 0 <= i < |images| && DescribesRelease(images[i], name, f.tags, env.now)
  }

  lemma AnyCrashCons(repos: seq<string>, env: Env)
    requires |repos| > 0
    ensures AnyCrash(repos, env) <==> Crashes(env, repos[0]) || AnyCrash(repos[1..], env)
  {
    if AnyCrash(repos[1..], env) {
      var i :| 0 <= i < |repos[1..]| && Crashes(env, repos[1..][i]);
      assert repos[i + 1] == repos[1..][i];
    }
    if AnyCrash(repos, env) && !Crashes(env, repos[0]) {
      var i :| 0 <= i < |repos| && Crashes(env, repos[i]);
      assert i > 0 && repos[1..][i - 1] == repos[i];
    }
  }

  /** One iteration of the loop over repositories: skip an ignored repository, walk
      its versions, and when tags were found classify them and create the record
      unless it is present. `aborted` is set when the walk throws. */
  function ProcessRepo(images: seq<Image>, name: string, env: Env): (s: Pass)
    ensures images <= s.images && |s.images| <= |images| + 1
    ensures |s.images| == |images| + 1 <==> Creates(images, name, env)
    ensures s.aborted <==> Crashes(env, name)
    ensures s.aborted ==> s.images == images
    ensures |s.images| > |images| ==> s.images[|images|].name == name && CreatedFrom(s.images[|images|], name, env)
  {
    if name in env.ignored then Pass(images, [], false)
    else
      match Fetched(env, name)
      case Crashed(requests) => Pass(images, requests, true)
      case Finished(tags, requests) =>
        if |tags| > 0 then Pass(Upsert(images, name, tags, env.now, name in env.lookupFails), requests, false)
        else Pass(images, requests, false)
  }

  /** The `for (const repo of repos)` loop, from the given images on; an exception
      in one iteration ends the loop. */
  function SyncRepos(images: seq<Image>, repos: seq<string>, env: Env): (p: Pass)
    ensures images <= p.images
    ensures |p.images| <= |images| + |repos|
    ensures p.aborted <==> AnyCrash(repos, env)
    decreases |repos|
  {
    if |repos| == 0 then Pass(images, [], false)
    else
      var step := ProcessRepo(images, repos[0], env);
      AnyCrashCons(repos, env);
      if step.aborted then Pass(images, step.requests, true)
      else
        var rest := SyncRepos(step.images, repos[1..], env);
        Pass(rest.images, step.requests + rest.requests, rest.aborted)
  }

  /** Every record the loop adds was created for one of the listed repositories
      from the tags its walk found. */
  lemma {:induction false} SyncReposCreates(images: seq<Image>, repos: seq<string>, env: Env)
    ensures forall i :: |images| <= i < |SyncRepos(images, repos, env).images| ==>
      CreatedFor(SyncRepos(images, repos, env).images[i], repos, env)
    decreases |repos|
  {
    if |repos| > 0 {
      var step := ProcessRepo(images, repos[0], env);
      if !step.aborted {
        SyncReposCreates(step.images, repos[1..], env);
        var p := SyncRepos(images, repos, env);
        var rest := SyncRepos(step.images, repos[1..], env);
        assert p.images == rest.images;
        forall i | |images| <= i < |p.images|
          ensures CreatedFor(p.images[i], repos, env)
        {
          if i < |step.images| {
            assert i == |images| && p.images[i] == step.images[i];
            assert p.images[i].name == repos[0];
          } else {
            assert CreatedFor(rest.images[i], repos[1..], env);
            assert p.images[i].name in repos[1..];
          }
        }
      }
    }
  }

  /** Every record the loop adds was created because its repository's lookup
      rejected or found no row among the records before it. */
  lemma {:induction false} SyncReposFresh(images: seq<Image>, repos: seq<string>, env: Env)
    ensures forall i :: |images| <= i < |SyncRepos(images, repos, env).images| ==>
      Creates(SyncRepos(images, repos, env).images[..i], SyncRepos(images, repos, env).images[i].name, env)
    decreases |repos|
  {
    if |repos| > 0 {
      var step := ProcessRepo(images, repos[0], env);
      if !step.aborted {
        SyncReposFresh(step.images, repos[1..], env);
        var p := SyncRepos(images, repos, env);
        var rest := SyncRepos(step.images, repos[1..], env);
        assert p.images == rest.images;
        forall i | |images| <= i < |p.images|
          ensures Creates(p.images[..i], p.images[i].name, env)
        {
          if i < |step.images| {
            assert i == |images| && p.images[i] == step.images[i];
            assert p.images[..i] == images;
          }
        }
      }
    }
  }

  /** After visiting `name`, it needs no further record. */
  lemma ProcessRepoRecords(images: seq<Image>, name: string, env: Env)
    ensures Recorded(ProcessRepo(images, name, env).images, name, env)
  {
    var s := ProcessRepo(images, name, env);
    if |s.images| == |images| + 1 {
      assert DescribesRelease(s.images[|images|], name, Fetched(env, name).tags, env.now);
    } else {
      assert s.images == images;
    }
  }

  /** Adding records keeps a repository recorded. */
  lemma RecordedGrows(images: seq<Image>, more: seq<Image>, name: string, env: Env)
    requires images <= more
    requires Recorded(images, name, env)
    ensures Recorded(more, name, env)
  {
    var f := Fetched(env, name);
    if name !in env.ignored && f.Finished? && |f.tags| > 0 {
      var c := Classify(f.tags);
      if KeyPresent(images, name, c.tag, LookupTrixie(c)) {
        KeyPresentGrows(images, more, name, c.tag, LookupTrixie(c));
      } else {
        var i :| 0 <= i < |images| && DescribesRelease(images[i], name, f.tags, env.now);
        assert more[i] == images[i];
      }
    }
  }

  lemma NoCrashBeforeTail(repos: seq<string>, env: Env, j: int)
    requires 1 <= j <= |repos| && NoCrashBefore(repos, env, j)
    ensures NoCrashBefore(repos[1..], env, j - 1)
  {
    forall m | 0 <= m < j - 1
      ensures !Crashes(env, repos[1..][m])
    {
      assert repos[1..][m] == repos[m + 1];
    }
  }

  /** Every listed repository the loop reaches is recorded when it ends: the loop
      creates a record for it unless the lookup key of its tags is already present. */
  lemma {:induction false} SyncReposRecords(images: seq<Image>, repos: seq<string>, env: Env)
    ensures forall j :: 0 <= j < |repos| && NoCrashBefore(repos, env, j) ==>
      Recorded(SyncRepos(images, repos, env).images, repos[j], env)
    decreases |repos|
  {
    if |repos| > 0 {
      var step := ProcessRepo(images, repos[0], env);
      var p := SyncRepos(images, repos, env);
      ProcessRepoRecords(images, repos[0], env);
      if step.aborted {
        assert p.images == step.images;
        assert Crashes(env, repos[0]);
      } else {
        var rest := SyncRepos(step.images, repos[1..], env);
        SyncReposRecords(step.images, repos[1..], env);
        assert p.images == rest.images;
        RecordedGrows(step.images, p.images, repos[0], env);
        RecordedCons(p.images, repos, env);
      }
    }
  }

  /** Recorded for the head and for every reachable repository of the tail gives
      recorded for every reachable repository of the list. */
  lemma RecordedCons(images: seq<Image>, repos: seq<string>, env: Env)
    requires |repos| > 0 && Recorded(images, repos[0], env)
    requires forall j :: 0 <= j < |repos[1..]| && NoCrashBefore(repos[1..], env, j) ==>
      Recorded(images, repos[1..][j], env)
    ensures forall j :: 0 <= j < |repos| && NoCrashBefore(repos, env, j) ==> Recorded(images, repos[j], env)
  {
    forall j | 1 <= j < |repos| && NoCrashBefore(repos, env, j)
      ensures Recorded(images, repos[j], env)
    {
      assert repos[1..][j - 1] == repos[j];
      NoCrashBeforeTail(repos, env, j);
    }
  }

  /** One step of the loop over a repository whose walk does not throw. */
  lemma SyncReposStep(images: seq<Image>, repos: seq<string>, env: Env)
    requires |repos| > 0 && !Crashes(env, repos[0])
    ensures var rest := SyncRepos(ProcessRepo(images, repos[0], env).images, repos[1..], env);
      SyncRepos(images, repos, env).images == rest.images && SyncRepos(images, repos, env).aborted == rest.aborted
  {
  }

  /** A walk that throws at the head of the list ends the loop at once. */
  lemma SyncReposHeadCrash(images: seq<Image>, repos: seq<string>, env: Env)
    requires |repos| > 0 && Crashes(env, repos[0])
    ensures SyncRepos(images, repos, env).aborted
    ensures SyncRepos(images, repos, env).images == SyncRepos(images, repos[..0], env).images
  {
    assert repos[..0] == [];
    assert ProcessRepo(images, repos[0], env).aborted;
  }

  /** A first crash at position j > 0 is a first crash at position j - 1 of the tail. */
  lemma FirstCrashInTail(repos: seq<string>, env: Env, j: int)
    requires 0 < j < |repos| && Crashes(env, repos[j]) && NoCrashBefore(repos, env, j)
    ensures !Crashes(env, repos[0])
    ensures Crashes(env, repos[1..][j - 1]) && NoCrashBefore(repos[1..], env, j - 1)
    ensures repos[..j][0] == repos[0] && repos[..j][1..] == repos[1..][..j - 1]
  {
    NoCrashBeforeTail(repos, env, j);
    assert repos[1..][j - 1] == repos[j];
  }

  /** The first walk that throws ends the loop: the store is what the repositories
      before it left, and no later repository is visited. */
  lemma {:induction false} SyncReposStopsAtCrash(images: seq<Image>, repos: seq<string>, env: Env, j: int)
    requires 0 <= j < |repos| && Crashes(env, repos[j]) && NoCrashBefore(repos, env, j)
    ensures SyncRepos(images, repos, env).aborted
    ensures SyncRepos(images, repos, env).images == SyncRepos(images, repos[..j], env).images
    decreases j
  {
    if j == 0 {
      SyncReposHeadCrash(images, repos, env);
    } else {
      FirstCrashInTail(repos, env, j);
      var next := ProcessRepo(images, repos[0], env).images;
      SyncReposStopsAtCrash(next, repos[1..], env, j - 1);
      SyncReposStep(images, repos, env);
      SyncReposStep(images, repos[..j], env);
    }
  }

  /** The same for every position: whichever repository is the first to throw. */
  lemma SyncReposStopsAtFirstCrash(images: seq<Image>, repos: seq<string>, env: Env)
    ensures forall j :: 0 <= j < |repos| && Crashes(env, repos[j]) && NoCrashBefore(repos, env, j) ==>
      SyncRepos(images, repos, env).images == SyncRepos(images, repos[..j], env).images
  {
    forall j | 0 <= j < |repos| && Crashes(env, repos[j]) && NoCrashBefore(repos, env, j)
      ensures SyncRepos(images, repos, env).images == SyncRepos(images, repos[..j], env).images
    {
      SyncReposStopsAtCrash(images, repos, env, j);
    }
  }

  /** `update_images(skip_wait)`. */
  function Cycle(store: Store, env: Env): (o: Outcome)
    ensures o.requests == [] <==> !env.clientReady || Gated(store, env)
    ensures !env.clientReady ==> o.store == store && o.retryIn == Some(Hour)
    ensures env.clientReady && Gated(store, env) ==>
      && o.store == store
      && o.retryIn == Some(Hour - (env.now - store.lastSync.value))
      && 0 < o.retryIn.value
    ensures env.clientReady && !Gated(store, env) ==>
      && o.store.lastSync == Some(env.now)
      && store.images <= o.store.images
      && |o.store.images| <= |store.images| + |env.repos|
      && (forall i :: |store.images| <= i < |o.store.images| ==> CreatedFor(o.store.images[i], env.repos, env))
      && (forall i :: |store.images| <= i < |o.store.images| ==> Creates(o.store.images[..i], o.store.images[i].name, env))
      && (forall j :: 0 <= j < |env.repos| && NoCrashBefore(env.repos, env, j) ==> Recorded(o.store.images, env.repos[j], env))
      && (forall j :: 0 <= j < |env.repos| && Crashes(env, env.repos[j]) && NoCrashBefore(env.repos, env, j) ==>
            o.store.images == SyncRepos(store.images, env.repos[..j], env).images)
      && (o.retryIn.None? <==> AnyCrash(env.repos, env))
      && (o.retryIn.Some? ==> o.retryIn == Some(Hour))
  {
    if !env.clientReady then
      Outcome(store, [], Some(Hour))
    else if Gated(store, env) then
      Outcome(store, [], Some(Hour - (env.now - store.lastSync.value)))
    else
      var pass := SyncRepos(store.images, env.repos, env);
      SyncReposCreates(store.images, env.repos, env);
      SyncReposFresh(store.images, env.repos, env);
      SyncReposRecords(store.images, env.repos, env);
      SyncReposStopsAtFirstCrash(store.images, env.repos, env);
      Outcome(
        Store(pass.images, Some(env.now)),
        [RateLimitPath, ReposPath] + pass.requests,
        if pass.aborted then None else Some(Hour))
  }

  /** Every record a cycle creates is marked stable. */
  lemma CreatedRecordsAreStable(store: Store, env: Env, i: int)
    requires |store.images| <= i < |Cycle(store, env).store.images|
    ensures Cycle(store, env).store.images[i].stable
  {
  }

  /** Ignored repositories, and repositories whose walk found no tags, never get a record. */
  lemma NoRecordForIgnoredOrTagless(store: Store, env: Env, name: string)
    requires name in env.ignored || (Fetched(env, name).Finished? && |Fetched(env, name).tags| == 0)
    ensures forall i :: |store.images| <= i < |Cycle(store, env).store.images| ==>
      Cycle(store, env).store.images[i].name != name
  {
  }

  /** With a trixie tag, the lookup key is the stored key: running the step again
      finds the record it created and adds nothing. */
  lemma UpsertIdempotentWithTrixie(images: seq<Image>, name: string, tags: seq<string>, now: int, later: int)
    requires Classify(tags).foundTrixie
    ensures var once := Upsert(images, name, tags, now, false);
      Upsert(once, name, tags, later, false) == once
  {
    var c := Classify(tags);
    var once := Upsert(images, name, tags, now, false);
    if |once| == |images| + 1 {
      assert once[|images|].tagTrixie == LookupTrixie(c);
    }
    assert KeyPresent(once, name, c.tag, LookupTrixie(c));
  }

  /** Without a trixie tag, the lookup filters on "" while the record stores
      "trixie-latest": a second run over unchanged tags creates a duplicate. */
  lemma UpsertDuplicatesWithoutTrixie(images: seq<Image>, name: string, tags: seq<string>, now: int, later: int)
    requires !Classify(tags).foundTrixie
    requires !KeyPresent(images, name, Classify(tags).tag, "")
    ensures var once := Upsert(images, name, tags, now, false);
      |Upsert(once, name, tags, later, false)| == |images| + 2
  {
    var c := Classify(tags);
    var once := Upsert(images, name, tags, now, false);
    assert once[|images|].tagTrixie == DefaultTrixieTag;
    forall i | 0 <= i < |once|
      ensures !(once[i].name == name && once[i].tag == c.tag && once[i].tagTrixie == "")
    {
      if i < |images| {
        assert once[i] == images[i];
      }
    }
  }

  /** The repository's record is in place: nothing further to create for it. */
  ghost predicate Settled(images: seq<Image>, env: Env, name: string) {
    var f := Fetched(env, name);
    name in env.ignored || (f.Finished? && (|f.tags| == 0 ||
      KeyPresent(images, name, Classify(f.tags).tag, LookupTrixie(Classify(f.tags)))))
  }

  /** The conditions under which a rerun adds nothing: every repository's walk
      finishes, its lookup does not fail, and whenever it found tags it found a
      trixie tag among them. */
  ghost predicate RerunSafe(repos: seq<string>, env: Env) {
    forall i :: 0 <= i < |repos| ==> SafeToRerun(env, repos[i])
  }

  /** The same condition for one repository. */
  ghost predicate SafeToRerun(env: Env, name: string) {
    name !in env.ignored ==>
      && Fetched(env, name).Finished?
      && name !in env.lookupFails
      && (|Fetched(env, name).tags| > 0 ==> Classify(Fetched(env, name).tags).foundTrixie)
  }

  lemma KeyPresentGrows(images: seq<Image>, more: seq<Image>, name: string, tag: string, tagTrixie: string)
    requires images <= more && KeyPresent(images, name, tag, tagTrixie)
    ensures KeyPresent(more, name, tag, tagTrixie)
  {
    var i :| 0 <= i < |images| && images[i].name == name && images[i].tag == tag && images[i].tagTrixie == tagTrixie;
    assert more[i] == images[i];
  }

  lemma RerunSafeTail(repos: seq<string>, env: Env)
    requires |repos| > 0 && RerunSafe(repos, env)
    ensures RerunSafe(repos[1..], env)
  {
    forall i | 0 <= i < |repos[1..]|
      ensures SafeToRerun(env, repos[1..][i])
    {
      assert repos[1..][i] == repos[i + 1];
    }
  }

  /** A repository that is safe to rerun and needs no further record is settled:
      a record created for it from its tags carries the key the lookup filters on. */
  lemma RecordedSettles(images: seq<Image>, env: Env, name: string)
    requires SafeToRerun(env, name) && Recorded(images, name, env)
    ensures Settled(images, env, name)
  {
  }

  /** After the loop, every repository of the list is settled. */
  lemma SyncReposSettles(images: seq<Image>, repos: seq<string>, env: Env)
    requires RerunSafe(repos, env)
    ensures forall i :: 0 <= i < |repos| ==> Settled(SyncRepos(images, repos, env).images, env, repos[i])
  {
    SyncReposRecords(images, repos, env);
    var result := SyncRepos(images, repos, env).images;
    forall i | 0 <= i < |repos|
      ensures Settled(result, env, repos[i])
    {
      assert NoCrashBefore(repos, env, i);
      RecordedSettles(result, env, repos[i]);
    }
  }

  /** Over settled repositories the loop creates nothing. */
  lemma {:induction false} SyncReposSettledNoop(images: seq<Image>, repos: seq<string>, env: Env)
    requires RerunSafe(repos, env)
    requires forall i :: 0 <= i < |repos| ==> Settled(images, env, repos[i])
    ensures SyncRepos(images, repos, env).images == images
    decreases |repos|
  {
    if |repos| > 0 {
      var name := repos[0];
      RerunSafeTail(repos, env);
      forall i | 0 <= i < |repos[1..]|
        ensures Settled(images, env, repos[1..][i])
      {
        assert repos[1..][i] == repos[i + 1];
      }
      if name !in env.ignored {
        var f := Fetched(env, name);
        assert Settled(images, env, repos[0]);
        if |f.tags| > 0 {
          assert Upsert(images, name, f.tags, env.now, name in env.lookupFails) == images;
        }
      }
      SyncReposSettledNoop(images, repos[1..], env);
    }
  }

  /** A second cycle over unchanged upstream data adds no record, provided every
      repository that yields tags also yields a trixie tag. */
  lemma RerunAddsNothing(store: Store, env: Env, again: Env)
    requires env.clientReady && !Gated(store, env)
    requires RerunSafe(env.repos, env)
    requires again == env.(now := again.now, skipWait := again.skipWait, lastSyncReadFails := again.lastSyncReadFails)
    ensures var first := Cycle(store, env);
      Cycle(first.store, again).store.images == first.store.images
  {
    var first := Cycle(store, env);
    SyncReposSettles(store.images, env.repos, env);
    forall name ensures Fetched(again, name) == Fetched(env, name) {
    }
    forall i | 0 <= i < |env.repos|
      ensures Settled(first.store.images, again, env.repos[i])
    {
    }
    assert RerunSafe(again.repos, again);
    if !Gated(first.store, again) {
      SyncReposSettledNoop(first.store.images, again.repos, again);
    }
  }
}

=== FILE: optional.dfy ===
/** The Some/None datatype used wherever the system works with a value that may be absent. */
module Optional {

  datatype Option<+T> = None | Some(value: T)
}

=== FILE: package_versions.dfy ===
/**
 * The container-versions walker (`getPaginatedData`) and the response
 * normaliser it uses (`parseData`).
 *
 * The upstream API is abstracted as the sequence of responses it gives: the
 * k-th request of one walk receives `responses[k]`, and a request past the end
 * of the sequence fails (as a request for an unknown package does). The link
 * header is reduced to the optional URL of its `rel="next"` relation.
 */
module PackageVersions {
  import opened Optional

  /** One package version; `tags` is its `metadata.container.tags`, None when absent. */
  datatype Element = Element(tags: Option<seq<string>>)

  /** A response body: a bare array, a falsy value (null, no content), or an object
      whose entries are listed in key order. */
  datatype Body = Array(items: seq<Element>) | Falsy | Object(entries: seq<Entry>)
  datatype Entry = Entry(key: string, value: Body)

  datatype Response = Failed | Ok(body: Body, next: Option<string>)

  /** What one walk produced: the collected tags, or the TypeError raised when the
      normalised body cannot be iterated. Both carry the URLs requested, in order. */
  datatype Fetch = Finished(tags: seq<string>, requests: seq<string>) | Crashed(requests: seq<string>)

  const MetadataKeys: set<string> := {"incomplete_results", "repository_selection", "total_count"}

  /** Entry i is the first one whose key is not a metadata key. */
  ghost predicate FirstDataEntry(entries: seq<Entry>, i: int) {
    && 0 <= i < |entries|
    && entries[i].key !in MetadataKeys
    && forall j :: 0 <= j < i ==> entries[j].key in MetadataKeys
  }

  /** The entries left once the metadata keys are deleted, in their original order. */
  function StripMetadata(entries: seq<Entry>): (r: seq<Entry>)
    ensures forall i :: 0 <= i < |r| ==> r[i].key !in MetadataKeys
    ensures |r| == 0 <==> forall i :: 0 <= i < |entries| ==> entries[i].key in MetadataKeys
    ensures forall i :: FirstDataEntry(entries, i) ==> |r| > 0 && r[0] == entries[i]
    decreases |entries|
  {
    if |entries| == 0 then []
    else
      var rest := StripMetadata(entries[1..]);
      assert forall i :: 1 <= i < |entries| ==> entries[1..][i - 1] == entries[i];
      assert forall i :: 1 <= i < |entries| && FirstDataEntry(entries, i) ==> FirstDataEntry(entries[1..], i - 1);
      if entries[0].key in MetadataKeys then rest
      else [entries[0]] + rest
  }

  /** `parseData`: a bare array is returned as it is, a falsy body becomes the empty
      array, and a wrapped object yields the value of its first non-metadata key
      (undefined, modelled as Falsy, when there is none). */
  function ParseData(data: Body): (r: Body)
    ensures data.Array? ==> r == data
    ensures data.Falsy? ==> r == Array([])
    ensures data.Object? && (forall i :: 0 <= i < |data.entries| ==> data.entries[i].key in MetadataKeys)
      ==> r == Falsy
    ensures data.Object? ==> forall i :: FirstDataEntry(data.entries, i) ==> r == data.entries[i].value
  {
    match data
    case Array(_) => data
    case Falsy => Array([])
    case Object(entries) =>
      var kept := StripMetadata(entries);
      if |kept| == 0 then Falsy else kept[0].value
  }

  /** The elements of a normalised page, or None when the walker's `for ... of` would throw. */
  function PageItems(b: Body): (r: Option<seq<Element>>)
    ensures r.Some? <==> ParseData(b).Array?
    ensures r.Some? ==> r.value == ParseData(b).items
    ensures b.Array? ==> r == Some(b.items)
    ensures b.Falsy? ==> r == Some([])
    ensures b.Object? && (forall i :: 0 <= i < |b.entries| ==> b.entries[i].key in MetadataKeys) ==> r.None?
  {
    match ParseData(b)
    case Array(items) => Some(items)
    case _ => None
  }

  /** One of the element's own tags marks it as the current release. */
  predicate Marked(tags: seq<string>): (r: bool)
    ensures r <==> "latest" in tags || "trixie-latest" in tags
  {
    exists i :: 0 <= i < |tags| && (tags[i] == "latest" || tags[i] == "trixie-latest")
  }

  /** What one element adds to the accumulator: all of its tags when it is marked. */
  function Contribution(e: Element): (r: seq<string>)
    ensures r != [] ==> e.tags.Some? && Marked(e.tags.value)
    ensures e.tags.Some? && Marked(e.tags.value) ==> r == e.tags.value
    ensures forall t :: t in r <==> e.tags.Some? && Marked(e.tags.value) && t in e.tags.value
  {
    if e.tags.Some? && Marked(e.tags.value) then e.tags.value else []
  }

  /** The element is marked and t is one of its tags. */
  predicate CarriesTag(e: Element, t: string) {
    e.tags.Some? && Marked(e.tags.value) && t in e.tags.value
  }

  /** The tags one page adds, element by element. */
  function Collect(items: seq<Element>): (r: seq<string>)
    ensures forall t :: t in r <==> exists i :: 0 <= i < |items| && t in Contribution(items[i])
    ensures |items| == 0 ==> r == []
  {
    if |items| == 0 then []
    else
      var rest := Collect(items[1..]);
      assert forall i :: 1 <= i < |items| ==> items[i] == items[1..][i - 1];
      Contribution(items[0]) + rest
  }

  lemma {:induction false} CollectAppend(a: seq<Element>, b: seq<Element>)
    ensures Collect(a + b) == Collect(a) + Collect(b)
    decreases |a|
  {
    if |a| == 0 {
      assert a + b == b;
    } else {
      assert (a + b)[1..] == a[1..] + b;
      CollectAppend(a[1..], b);
    }
  }

  /** A marked element contributes every one of its tags, not only the marker. */
  lemma MarkedElementContributesAll(items: seq<Element>, i: int)
    requires 0 <= i < |items| && items[i].tags.Some? && Marked(items[i].tags.value)
    ensures forall t :: t in items[i].tags.value ==> t in Collect(items)
  {
  }

  /** A page that the walker reads past: it succeeded, normalised to an empty array,
      and announced a next page. */
  predicate Followable(r: Response) {
    r.Ok? && PageItems(r.body) == Some([]) && r.next.Some?
  }

  /** The number of consecutive followable responses from position k on. */
  function FollowRun(responses: seq<Response>, k: nat): nat
    decreases |responses| - k
  {
    if k < |responses| && Followable(responses[k]) then 1 + FollowRun(responses, k + 1) else 0
  }

  /** The number of leading responses that succeeded with an empty page. */
  function LeadingEmpty(responses: seq<Response>): nat {
    if |responses| > 0 && responses[0].Ok? && PageItems(responses[0].body) == Some([])
    then 1 + LeadingEmpty(responses[1..])
    else 0
  }

  /** Each URL after the first is the next link of the response to the request
      before it; the first of `requests` went out as request number k. */
  ghost predicate ChainedFrom(responses: seq<Response>, k: nat, requests: seq<string>)
    decreases |requests|
  {
    |requests| <= 1 ||
      (&& k < |responses| && responses[k].Ok? && responses[k].next.Some?
       && requests[1] == responses[k].next.value
       && ChainedFrom(responses, k + 1, requests[1..]))
  }

  /** The chain read at one position. */
  lemma {:induction false} ChainedAt(responses: seq<Response>, k: nat, requests: seq<string>, j: nat)
    requires ChainedFrom(responses, k, requests) && j + 1 < |requests|
    ensures k + j < |responses| && responses[k + j].Ok? && responses[k + j].next.Some?
    ensures requests[j + 1] == responses[k + j].next.value
    decreases j
  {
    if j > 0 {
      ChainedAt(responses, k + 1, requests[1..], j - 1);
    }
  }

  /** The number of the last request of a walk whose request number k is under way. */
  function LastRequest(responses: seq<Response>, k: nat): nat {
    k + FollowRun(responses, k)
  }

  /** Request k succeeded but its normalised body cannot be iterated. */
  predicate PageCrashes(responses: seq<Response>, k: int) {
    0 <= k < |responses| && responses[k].Ok? && PageItems(responses[k].body).None?
  }

  /** The tags request k adds: nothing when it failed or ran past the responses. */
  function PageTags(responses: seq<Response>, k: int): seq<string> {
    if 0 <= k < |responses| && responses[k].Ok? && PageItems(responses[k].body).Some?
    then Collect(PageItems(responses[k].body).value)
    else []
  }

  /** The loop of `getPaginatedData` from its request number k, of `url`, on; `data`
      holds the tags accumulated by the requests before. The result lists the URLs
      requested from this one on. */
  function Walk(url: string, responses: seq<Response>, k: nat, data: seq<string>): (r: Fetch)
    requires k <= |responses|
    ensures |r.requests| == 1 + FollowRun(responses, k) && r.requests[0] == url
    ensures ChainedFrom(responses, k, r.requests)
    ensures r.Crashed? <==> PageCrashes(responses, LastRequest(responses, k))
    ensures r.Finished? ==> r.tags == data + PageTags(responses, LastRequest(responses, k))
    decreases |responses| - k
  {
    if k == |responses| || responses[k].Failed? then
      assert FollowRun(responses, k) == 0;
      assert !PageCrashes(responses, k) && PageTags(responses, k) == [];
      Finished(data, [url])
    else
      var page := PageItems(responses[k].body);
      if page.None? then
        assert FollowRun(responses, k) == 0 && PageCrashes(responses, k);
        Crashed([url])
      else
        var items := page.value;
        var accumulated := data + Collect(items);
        var continueGetting := !(|items| >= 1);
        if responses[k].next.Some? && continueGetting then
          var next := responses[k].next.value;
          assert items == [] && accumulated == data;
          assert Followable(responses[k]);
          assert FollowRun(responses, k) == 1 + FollowRun(responses, k + 1);
          assert LastRequest(responses, k) == LastRequest(responses, k + 1);
          var rest := Walk(next, responses, k + 1, accumulated);
          var requests := [url] + rest.requests;
          assert requests[1..] == rest.requests;
          if rest.Finished? then Finished(rest.tags, requests) else Crashed(requests)
        else
          assert !Followable(responses[k]);
          assert FollowRun(responses, k) == 0;
          assert !PageCrashes(responses, k) && PageTags(responses, k) == Collect(items);
          Finished(accumulated, [url])
  }

  /** Every request but the last read past a followable page. */
  lemma {:induction false} FollowRunFollowable(responses: seq<Response>, k: nat, j: nat)
    requires k <= j < k + FollowRun(responses, k)
    ensures j < |responses| && Followable(responses[j])
    decreases j - k
  {
    if j > k {
      FollowRunFollowable(responses, k + 1, j);
    }
  }

  /** `getPaginatedData(path)`: the tags of the marked elements of the first page
      that is not empty, reached by following next links across empty pages. */
  function FetchTags(path: string, responses: seq<Response>): (r: Fetch)
    ensures |r.requests| == 1 + FollowRun(responses, 0) && r.requests[0] == path
    ensures ChainedFrom(responses, 0, r.requests)
    ensures r.Crashed? <==> PageCrashes(responses, |r.requests| - 1)
    ensures r.Finished? ==> r.tags == PageTags(responses, |r.requests| - 1)
  {
    Walk(path, responses, 0, [])
  }

  /** A next link is followed only after an empty page: every request but the last
      received a successful, empty page that carried a next link. */
  lemma NextFollowedOnlyAfterEmptyPage(path: string, responses: seq<Response>, j: nat)
    requires j < |FetchTags(path, responses).requests| - 1
    ensures j < |responses| && responses[j].Ok? && PageItems(responses[j].body) == Some([])
    ensures responses[j].next.Some? && FetchTags(path, responses).requests[j + 1] == responses[j].next.value
  {
    FollowRunFollowable(responses, 0, j);
    ChainedAt(responses, 0, FetchTags(path, responses).requests, j);
  }

  /** Pages that are empty are the only ones read past: the request count is at most
      one more than the number of leading empty pages. */
  lemma {:induction false} FollowRunBound(responses: seq<Response>, k: nat)
    requires k <= |responses|
    ensures FollowRun(responses, k) <= LeadingEmpty(responses[k..])
    decreases |responses| - k
  {
    if k < |responses| && Followable(responses[k]) {
      FollowRunBound(responses, k + 1);
      assert responses[k..][1..] == responses[k + 1..];
    }
  }

  lemma RequestCountBound(path: string, responses: seq<Response>)
    ensures |FetchTags(path, responses).requests| <= 1 + LeadingEmpty(responses)
  {
    FollowRunBound(responses, 0);
    assert responses[0..] == responses;
  }

  /** A first page that is not empty is the only page requested, whatever its link
      header says, and its marked elements give the result. */
  lemma StopsAfterFirstNonEmptyPage(path: string, responses: seq<Response>)
    requires |responses| > 0 && responses[0].Ok?
    requires PageItems(responses[0].body).Some? && |PageItems(responses[0].body).value| > 0
    ensures FetchTags(path, responses) == Finished(Collect(PageItems(responses[0].body).value), [path])
  {
    var r := FetchTags(path, responses);
    assert !Followable(responses[0]);
    assert |r.requests| == 1;
    assert r.requests == [path];
  }

  /** A failed request ends the walk with what was accumulated before it: nothing,
      since only empty pages were read past. */
  lemma FailureYieldsAccumulated(path: string, responses: seq<Response>)
    ensures var r := FetchTags(path, responses);
      var last := |r.requests| - 1;
      (last >= |responses| || responses[last].Failed?) ==> r == Finished([], r.requests)
  {
  }

  /** Request k received a page one of whose marked elements carries tag t. */
  ghost predicate PageCarries(responses: seq<Response>, k: int, t: string) {
    && 0 <= k < |responses| && responses[k].Ok? && PageItems(responses[k].body).Some?
    && exists i :: 0 <= i < |PageItems(responses[k].body).value| &&
         CarriesTag(PageItems(responses[k].body).value[i], t)
  }

  /** Every tag returned belongs to an element of the last page that carries `latest`
      or `trixie-latest`. */
  lemma TagsComeFromMarkedElements(path: string, responses: seq<Response>, t: string)
    requires FetchTags(path, responses).Finished? && t in FetchTags(path, responses).tags
    ensures PageCarries(responses, |FetchTags(path, responses).requests| - 1, t)
  {
    var last := |FetchTags(path, responses).requests| - 1;
    var items := PageItems(responses[last].body).value;
    var i :| 0 <= i < |items| && t in Contribution(items[i]);
    assert CarriesTag(items[i], t);
  }
}

=== FILE: recommend.dfy ===
/**
 * The recommendation resolver behind the four `/recommended` endpoints: for each
 * image name, fold over that name's records in input order, keeping the running
 * best and replacing it by a later record only when that one is stable and the
 * best is not, or both have the same stability and the later one was modified
 * strictly later. The trixie variants first drop records whose `url_trixie` is
 * empty; the "all" variants group by name in first-appearance order.
 *
 * The store query that feeds each endpoint is an input: None stands for a read
 * that failed, Some(rows) for the rows in the order the query returned them.
 */
module Recommend {
  import opened Optional
  import opened Schema

  /** The fold's replacement rule, branch by branch as the endpoints write it: a
      stable record beats an unstable one, and within the same stability the later
      modification date wins; ties keep the record already held. */
  predicate Replaces(candidate: Image, best: Image): (r: bool)
    ensures r <==> ((candidate.stable && !best.stable)
      || (candidate.stable == best.stable && candidate.modifiedDate > best.modifiedDate))
  {
    if candidate.stable && !best.stable then true
    else if candidate.stable && best.stable then candidate.modifiedDate > best.modifiedDate
    else if !candidate.stable && !best.stable then candidate.modifiedDate > best.modifiedDate
    else false
  }

  /** Reference definition of the choice among `cands`: no candidate replaces
      position k, and position k replaces every candidate before it. */
  ghost predicate IsChoice(cands: seq<Image>, k: int) {
    && 0 <= k < |cands|
    && (forall j :: 0 <= j < |cands| ==> !Replaces(cands[j], cands[k]))
    && (forall j :: 0 <= j < k ==> Replaces(cands[k], cands[j]))
  }

  /** The same, over the first n candidates only. */
  ghost predicate IsChoiceAmong(cands: seq<Image>, n: int, k: int) {
    && 0 <= k < n <= |cands|
    && (forall j :: 0 <= j < n ==> !Replaces(cands[j], cands[k]))
    && (forall j :: 0 <= j < k ==> Replaces(cands[k], cands[j]))
  }

  /** The fold from position i on, with the running best at position k. */
  function Fold(cands: seq<Image>, k: nat, i: nat): (r: nat)
    requires IsChoiceAmong(cands, i, k)
    ensures IsChoice(cands, r)
    decreases |cands| - i
  {
    if i == |cands| then k
    else if Replaces(cands[i], cands[k]) then Fold(cands, i, i + 1)
    else Fold(cands, k, i + 1)
  }

  /** The record the fold keeps, None for no candidates (`latestImage` stays null). */
  function Choose(cands: seq<Image>): (r: Option<Image>)
    ensures r.None? <==> |cands| == 0
    ensures r.Some? ==> exists k :: IsChoice(cands, k) && r.value == cands[k]
  {
    if |cands| == 0 then None
    else
      var k := Fold(cands, 0, 1);
      Some(cands[k])
  }

  /** The choice rule in plain terms: the choice is a candidate; it is stable when any
      candidate is (an unstable candidate never displaces a stable one); no candidate
      of the same stability was modified later; and it comes before every other
      candidate of its stability and modification time. */
  lemma ChoiceRule(cands: seq<Image>, chosen: Image)
    requires Choose(cands) == Some(chosen)
    ensures chosen in cands
    ensures (exists j :: 0 <= j < |cands| && cands[j].stable) ==> chosen.stable
    ensures forall j :: 0 <= j < |cands| && cands[j].stable == chosen.stable ==>
      cands[j].modifiedDate <= chosen.modifiedDate
    ensures exists k :: 0 <= k < |cands| && cands[k] == chosen && EarliestOfItsRank(cands, k)
  {
    var k :| IsChoice(cands, k) && chosen == cands[k];
    forall j | 0 <= j < |cands|
      ensures cands[j].stable ==> chosen.stable
      ensures cands[j].stable == chosen.stable ==> cands[j].modifiedDate <= chosen.modifiedDate
    {
      assert !Replaces(cands[j], cands[k]);
    }
    forall j | 0 <= j < k && cands[j].stable == cands[k].stable
      ensures cands[j].modifiedDate < cands[k].modifiedDate
    {
      assert Replaces(cands[k], cands[j]);
    }
    assert EarliestOfItsRank(cands, k);
  }

  /** Every candidate before position k with the same stability was modified strictly earlier. */
  ghost predicate EarliestOfItsRank(cands: seq<Image>, k: int)
    requires 0 <= k < |cands|
  {
    forall j :: 0 <= j < k && cands[j].stable == cands[k].stable ==> cands[j].modifiedDate < cands[k].modifiedDate
  }

  /** The reference definition picks one position only. */
  lemma ChoiceUnique(cands: seq<Image>, k1: int, k2: int)
    requires IsChoice(cands, k1) && IsChoice(cands, k2)
    ensures k1 == k2
  {
    assert !Replaces(cands[k2], cands[k1]) && !Replaces(cands[k1], cands[k2]);
  }

  /** Three records of one name: the unstable one is newest, yet the newer stable one wins. */
  lemma StableBeatsRecencyExample(a: Image, b: Image, c: Image)
    requires a.name == b.name == c.name
    requires !a.stable && b.stable && c.stable
    requires b.modifiedDate < a.modifiedDate && b.modifiedDate < c.modifiedDate
    ensures Choose([a, b, c]) == Some(c)
  {
    var cands := [a, b, c];
    assert Replaces(b, a) && Replaces(c, b);
    assert Fold(cands, 2, 3) == 2;
    assert Fold(cands, 1, 2) == 2;
    assert Fold(cands, 0, 1) == 2;
  }

  /** The record survives the trixie filter: it is off, or the record has a trixie URL. */
  predicate TrixieOk(x: Image, trixieOnly: bool) {
    !trixieOnly || x.urlTrixie != ""
  }

  /** The record has this name and survives the trixie filter. */
  predicate Passes(x: Image, name: string, trixieOnly: bool) {
    x.name == name && TrixieOk(x, trixieOnly)
  }

  /** Records of the given name that pass the trixie filter when it is on. */
  function Candidates(rows: seq<Image>, name: string, trixieOnly: bool): (r: seq<Image>)
    ensures forall x :: x in r <==> x in rows && Passes(x, name, trixieOnly)
    decreases |rows|
  {
    if |rows| == 0 then []
    else
      var rest := Candidates(rows[..|rows| - 1], name, trixieOnly);
      var x := rows[|rows| - 1];
      assert rows == rows[..|rows| - 1] + [x];
      if Passes(x, name, trixieOnly) then rest + [x] else rest
  }

  /** The records the trixie filter keeps (all of them when it is off), in order. */
  function TrixieFilter(rows: seq<Image>, trixieOnly: bool): (r: seq<Image>)
    ensures forall x :: x in r <==> x in rows && TrixieOk(x, trixieOnly)
    decreases |rows|
  {
    if |rows| == 0 then []
    else
      var rest := TrixieFilter(rows[..|rows| - 1], trixieOnly);
      var x := rows[|rows| - 1];
      assert rows == rows[..|rows| - 1] + [x];
      if TrixieOk(x, trixieOnly) then rest + [x] else rest
  }

  /** The records of one name, in order: what the by-name store query returns. */
  function OnName(rows: seq<Image>, name: string): (r: seq<Image>)
    ensures forall x :: x in r <==> x in rows && x.name == name
    decreases |rows|
  {
    if |rows| == 0 then []
    else
      var rest := OnName(rows[..|rows| - 1], name);
      var x := rows[|rows| - 1];
      assert rows == rows[..|rows| - 1] + [x];
      if x.name == name then rest + [x] else rest
  }

  /** The name filter keeps the order of the records: filtering a concatenation is
      concatenating the filtered parts. */
  lemma {:induction false} CandidatesAppend(a: seq<Image>, b: seq<Image>, name: string, trixieOnly: bool)
    ensures Candidates(a + b, name, trixieOnly) == Candidates(a, name, trixieOnly) + Candidates(b, name, trixieOnly)
    decreases |b|
  {
    if |b| == 0 {
      assert a + b == a;
    } else {
      var init := b[..|b| - 1];
      CandidatesAppend(a, init, name, trixieOnly);
      assert (a + b)[..|a + b| - 1] == a + init;
      assert (a + b)[|a + b| - 1] == b[|b| - 1];
    }
  }

  /** The trixie filter keeps the order of the records in the same way. */
  lemma {:induction false} TrixieFilterAppend(a: seq<Image>, b: seq<Image>, trixieOnly: bool)
    ensures TrixieFilter(a + b, trixieOnly) == TrixieFilter(a, trixieOnly) + TrixieFilter(b, trixieOnly)
    decreases |b|
  {
    if |b| == 0 {
      assert a + b == a;
    } else {
      var init := b[..|b| - 1];
      var y := b[|b| - 1];
      TrixieFilterAppend(a, init, trixieOnly);
      assert (a + b)[..|a + b| - 1] == a + init;
      assert (a + b)[|a + b| - 1] == y;
      if TrixieOk(y, trixieOnly) {
        assert TrixieFilter(a + b, trixieOnly) == TrixieFilter(a + init, trixieOnly) + [y];
        assert TrixieFilter(b, trixieOnly) == TrixieFilter(init, trixieOnly) + [y];
      } else {
        assert TrixieFilter(a + b, trixieOnly) == TrixieFilter(a + init, trixieOnly);
        assert TrixieFilter(b, trixieOnly) == TrixieFilter(init, trixieOnly);
      }
    }
  }

  /** Filtering by name then by trixie URL is the one-step filter of the "all"
      variants, order included. */
  lemma {:induction false} CandidatesSplit(rows: seq<Image>, name: string, trixieOnly: bool)
    ensures Candidates(rows, name, trixieOnly) == TrixieFilter(OnName(rows, name), trixieOnly)
    decreases |rows|
  {
    if |rows| > 0 {
      var init := rows[..|rows| - 1];
      var x := rows[|rows| - 1];
      CandidatesSplit(init, name, trixieOnly);
      var on := OnName(init, name);
      if x.name == name {
        assert OnName(rows, name) == on + [x];
        assert (on + [x])[..|on + [x]| - 1] == on;
      }
    }
  }

  /** The position of the first record with this name, |rows| when there is none. */
  function FirstIndex(rows: seq<Image>, name: string): (r: nat)
    ensures r <= |rows|
    ensures r < |rows| ==> rows[r].name == name
    ensures forall j :: 0 <= j < r ==> rows[j].name != name
  {
    if |rows| == 0 then 0
    else if rows[0].name == name then 0
    else 1 + FirstIndex(rows[1..], name)
  }

  /** Names listed in strictly increasing order of first appearance (so each once). */
  ghost predicate InAppearanceOrder(rows: seq<Image>, names: seq<string>) {
    forall i, j :: 0 <= i < j < |names| ==> FirstIndex(rows, names[i]) < FirstIndex(rows, names[j])
  }

  /** In a longer list the first index of a name already present does not move. */
  lemma FirstIndexPrefix(rows: seq<Image>, n: nat, name: string)
    requires n <= |rows| && FirstIndex(rows[..n], name) < n
    ensures FirstIndex(rows, name) == FirstIndex(rows[..n], name)
  {
    var a := FirstIndex(rows[..n], name);
    var b := FirstIndex(rows, name);
    assert rows[..n][a] == rows[a];
    assert forall j :: 0 <= j < n ==> rows[..n][j] == rows[j];
  }

  /** The `names` array: each record's name, pushed unless already included. */
  function Names(rows: seq<Image>): (names: seq<string>)
    ensures forall n :: n in names <==> exists i :: 0 <= i < |rows| && rows[i].name == n
    decreases |rows|
  {
    if |rows| == 0 then []
    else
      var init := rows[..|rows| - 1];
      var x := rows[|rows| - 1];
      var names := Names(init);
      assert forall i :: 0 <= i < |init| ==> init[i] == rows[i];
      if x.name in names then names else names + [x.name]
  }

  /** A name that occurs has its first index inside the list. */
  lemma FirstIndexOccurs(rows: seq<Image>, i: int)
    requires 0 <= i < |rows|
    ensures FirstIndex(rows, rows[i].name) <= i
  {
  }

  /** Appending a name that first appears after every listed one keeps the order. */
  lemma InOrderSnoc(rows: seq<Image>, names: seq<string>, x: string)
    requires InAppearanceOrder(rows, names)
    requires forall n :: n in names ==> FirstIndex(rows, n) < FirstIndex(rows, x)
    ensures InAppearanceOrder(rows, names + [x])
  {
    var all := names + [x];
    forall i, j | 0 <= i < j < |all|
      ensures FirstIndex(rows, all[i]) < FirstIndex(rows, all[j])
    {
      assert all[i] == names[i] && names[i] in names;
      if j < |names| {
        assert all[j] == names[j];
      }
    }
  }

  /** Prefixing a name that first appears before every listed one keeps the order. */
  lemma InOrderCons(rows: seq<Image>, x: string, names: seq<string>)
    requires InAppearanceOrder(rows, names)
    requires forall m :: 0 <= m < |names| ==> FirstIndex(rows, x) < FirstIndex(rows, names[m])
    ensures InAppearanceOrder(rows, [x] + names)
  {
    var all := [x] + names;
    forall i, j | 0 <= i < j < |all|
      ensures FirstIndex(rows, all[i]) < FirstIndex(rows, all[j])
    {
      ConsPair(rows, x, names, i, j);
    }
  }

  /** One pair of positions in `[x] + names`, compared through the two hypotheses of InOrderCons. */
  lemma ConsPair(rows: seq<Image>, x: string, names: seq<string>, i: int, j: int)
    requires InAppearanceOrder(rows, names)
    requires forall m :: 0 <= m < |names| ==> FirstIndex(rows, x) < FirstIndex(rows, names[m])
    requires 0 <= i < j <= |names|
    ensures FirstIndex(rows, ([x] + names)[i]) < FirstIndex(rows, ([x] + names)[j])
  {
    var all := [x] + names;
    assert all[j] == names[j - 1];
    if i == 0 {
      assert all[i] == x;
      assert FirstIndex(rows, x) < FirstIndex(rows, names[j - 1]);
    } else {
      assert all[i] == names[i - 1];
      assert FirstIndex(rows, names[i - 1]) < FirstIndex(rows, names[j - 1]);
    }
  }

  /** The tail of an ordered list is ordered, and its head comes first. */
  lemma InOrderUncons(rows: seq<Image>, names: seq<string>)
    requires |names| > 0 && InAppearanceOrder(rows, names)
    ensures InAppearanceOrder(rows, names[1..])
    ensures forall n :: n in names[1..] ==> FirstIndex(rows, names[0]) < FirstIndex(rows, n)
  {
    var tail := names[1..];
    forall i, j | 0 <= i < j < |tail|
      ensures FirstIndex(rows, tail[i]) < FirstIndex(rows, tail[j])
    {
      assert tail[i] == names[i + 1] && tail[j] == names[j + 1];
    }
    forall n | n in tail
      ensures FirstIndex(rows, names[0]) < FirstIndex(rows, n)
    {
      var m :| 0 <= m < |tail| && tail[m] == n;
      assert names[m + 1] == n;
    }
  }

  /** Names already seen before the last record keep their first index. */
  lemma FirstIndicesKept(rows: seq<Image>)
    requires |rows| > 0
    ensures var init := rows[..|rows| - 1];
      forall n :: n in Names(init) ==> FirstIndex(rows, n) == FirstIndex(init, n) < |init|
  {
    var init := rows[..|rows| - 1];
    forall n | n in Names(init)
      ensures FirstIndex(rows, n) == FirstIndex(init, n) < |init|
    {
      var i :| 0 <= i < |init| && init[i].name == n;
      FirstIndexOccurs(init, i);
      FirstIndexPrefix(rows, |rows| - 1, n);
    }
  }

  /** A name first seen in the last record has that record's index. */
  lemma FirstIndexOfNewName(rows: seq<Image>)
    requires |rows| > 0 && rows[|rows| - 1].name !in Names(rows[..|rows| - 1])
    ensures FirstIndex(rows, rows[|rows| - 1].name) == |rows| - 1
  {
    var init := rows[..|rows| - 1];
    var x := rows[|rows| - 1].name;
    assert forall j :: 0 <= j < |init| ==> init[j].name != x;
    forall j | 0 <= j < |rows| - 1
      ensures rows[j].name != x
    {
      assert rows[j] == init[j];
    }
    var r := FirstIndex(rows, x);
    assert r >= |rows| - 1;
  }

  /** The names come out in order of first appearance, each once. */
  lemma {:induction false} NamesInAppearanceOrder(rows: seq<Image>)
    ensures InAppearanceOrder(rows, Names(rows))
    decreases |rows|
  {
    if |rows| > 0 {
      var init := rows[..|rows| - 1];
      var x := rows[|rows| - 1];
      var names := Names(init);
      NamesInAppearanceOrder(init);
      FirstIndicesKept(rows);
      assert InAppearanceOrder(rows, names);
      if x.name !in names {
        FirstIndexOfNewName(rows);
        InOrderSnoc(rows, names, x.name);
      }
    }
  }

  /** The names whose candidate list is not empty, in the order given. */
  function KeptNames(rows: seq<Image>, names: seq<string>, trixieOnly: bool): (r: seq<string>)
    ensures forall n :: n in r <==> n in names && |Candidates(rows, n, trixieOnly)| > 0
  {
    if |names| == 0 then []
    else if |Candidates(rows, names[0], trixieOnly)| > 0 then [names[0]] + KeptNames(rows, names[1..], trixieOnly)
    else KeptNames(rows, names[1..], trixieOnly)
  }

  /** Dropping names keeps the order of the others. */
  lemma {:induction false} KeptNamesInOrder(rows: seq<Image>, names: seq<string>, trixieOnly: bool)
    requires InAppearanceOrder(rows, names)
    ensures InAppearanceOrder(rows, KeptNames(rows, names, trixieOnly))
    decreases |names|
  {
    if |names| > 0 {
      InOrderUncons(rows, names);
      KeptNamesInOrder(rows, names[1..], trixieOnly);
      if |Candidates(rows, names[0], trixieOnly)| > 0 {
        var kept := KeptNames(rows, names[1..], trixieOnly);
        forall m | 0 <= m < |kept|
          ensures FirstIndex(rows, names[0]) < FirstIndex(rows, kept[m])
        {
          assert kept[m] in kept;
        }
        InOrderCons(rows, names[0], kept);
      }
    }
  }

  /** Every name keeps its candidates when no trixie filter applies. */
  lemma {:induction false} KeptNamesAll(rows: seq<Image>, names: seq<string>)
    requires forall n :: n in names ==> exists i :: 0 <= i < |rows| && rows[i].name == n
    ensures KeptNames(rows, names, false) == names
    decreases |names|
  {
    if |names| > 0 {
      assert names[0] in names;
      var i :| 0 <= i < |rows| && rows[i].name == names[0];
      assert rows[i] in Candidates(rows, names[0], false);
      assert forall n :: n in names[1..] ==> n in names;
      KeptNamesAll(rows, names[1..]);
    }
  }

  function NamesOf(images: seq<Image>): (r: seq<string>)
    ensures |r| == |images| && forall i :: 0 <= i < |images| ==> r[i] == images[i].name
  {
    if |images| == 0 then [] else [images[0].name] + NamesOf(images[1..])
  }

  /** The loop over names: each name's chosen record, when it has one. */
  function Emit(rows: seq<Image>, names: seq<string>, trixieOnly: bool): (out: seq<Image>)
    ensures NamesOf(out) == KeptNames(rows, names, trixieOnly)
    ensures forall i :: 0 <= i < |out| ==> Choose(Candidates(rows, out[i].name, trixieOnly)) == Some(out[i])
  {
    if |names| == 0 then []
    else
      var rest := Emit(rows, names[1..], trixieOnly);
      match Choose(Candidates(rows, names[0], trixieOnly))
      case Some(best) =>
        assert best in Candidates(rows, names[0], trixieOnly);
        assert NamesOf([best] + rest) == [best.name] + NamesOf(rest);
        [best] + rest
      case None => rest
  }

  /** `/images/all/recommended` (trixieOnly false) and `/images/trixie/all/recommended`
      (trixieOnly true). */
  function RecommendAll(read: Option<seq<Image>>, trixieOnly: bool): (out: seq<Image>)
    ensures read.None? || |read.value| == 0 ==> out == []
    ensures read.Some? ==> forall i :: 0 <= i < |out| ==>
      && out[i] in read.value
      && TrixieOk(out[i], trixieOnly)
      && Choose(Candidates(read.value, out[i].name, trixieOnly)) == Some(out[i])
    ensures read.Some? ==> forall n ::
      n in NamesOf(out) <==> exists j :: 0 <= j < |read.value| && Passes(read.value[j], n, trixieOnly)
    ensures read.Some? ==> InAppearanceOrder(read.value, NamesOf(out))
    ensures read.Some? && !trixieOnly ==> NamesOf(out) == Names(read.value)
  {
    if read.None? || |read.value| == 0 then []
    else
      EmitByAppearance(read.value, trixieOnly);
      Emit(read.value, Names(read.value), trixieOnly)
  }

  /** What the loop over all names produces: each output record is the choice of its
      name, the names appear once each in first-appearance order, and a name is
      present exactly when one of its records passes the filter. */
  lemma EmitByAppearance(rows: seq<Image>, trixieOnly: bool)
    ensures var out := Emit(rows, Names(rows), trixieOnly);
      && (forall i :: 0 <= i < |out| ==> out[i] in rows && TrixieOk(out[i], trixieOnly))
      && (forall n :: n in NamesOf(out) <==> exists j :: 0 <= j < |rows| && Passes(rows[j], n, trixieOnly))
      && InAppearanceOrder(rows, NamesOf(out))
      && (!trixieOnly ==> NamesOf(out) == Names(rows))
  {
    var out := Emit(rows, Names(rows), trixieOnly);
    NamesInAppearanceOrder(rows);
    KeptNamesInOrder(rows, Names(rows), trixieOnly);
    if !trixieOnly {
      KeptNamesAll(rows, Names(rows));
    }
    forall i | 0 <= i < |out|
      ensures out[i] in rows && TrixieOk(out[i], trixieOnly)
    {
      var cands := Candidates(rows, out[i].name, trixieOnly);
      var k :| IsChoice(cands, k) && out[i] == cands[k];
      assert out[i] in cands;
    }
    forall n | exists j :: 0 <= j < |rows| && Passes(rows[j], n, trixieOnly)
      ensures n in NamesOf(out)
    {
      var j :| 0 <= j < |rows| && Passes(rows[j], n, trixieOnly);
      assert rows[j] in Candidates(rows, n, trixieOnly);
    }
    forall n | n in NamesOf(out)
      ensures exists j :: 0 <= j < |rows| && Passes(rows[j], n, trixieOnly)
    {
      var cands := Candidates(rows, n, trixieOnly);
      assert cands[0] in cands;
      var j :| 0 <= j < |rows| && rows[j] == cands[0];
    }
  }

  /** `/images/byname/:name/recommended` (trixieOnly false) and
      `/images/trixie/byname/:name/recommended` (trixieOnly true), given the rows the
      by-name query returned. */
  function RecommendByName(read: Option<seq<Image>>, trixieOnly: bool): (out: seq<Image>)
    ensures |out| <= 1
    ensures read.None? || |read.value| == 0 ==> out == []
    ensures read.Some? ==> (out == [] <==> forall j :: 0 <= j < |read.value| ==> !TrixieOk(read.value[j], trixieOnly))
    ensures read.Some? && |out| == 1 ==> Choose(TrixieFilter(read.value, trixieOnly)) == Some(out[0])
  {
    if read.None? || |read.value| == 0 then []
    else
      var rows := read.value;
      TrixieFilterEmpty(rows, trixieOnly);
      match Choose(TrixieFilter(rows, trixieOnly))
      case Some(best) => [best]
      case None => []
  }

  /** The trixie filter keeps nothing exactly when no record survives it. */
  lemma TrixieFilterEmpty(rows: seq<Image>, trixieOnly: bool)
    ensures TrixieFilter(rows, trixieOnly) == [] <==> forall j :: 0 <= j < |rows| ==> !TrixieOk(rows[j], trixieOnly)
  {
    var kept := TrixieFilter(rows, trixieOnly);
    if kept != [] {
      assert kept[0] in kept;
      var j :| 0 <= j < |rows| && rows[j] == kept[0];
    }
    forall j | 0 <= j < |rows| && TrixieOk(rows[j], trixieOnly)
      ensures kept != []
    {
      assert rows[j] in kept;
    }
  }

  /** A name none of whose records passes the filter has no candidates. */
  lemma {:induction false} NoCandidates(rows: seq<Image>, name: string, trixieOnly: bool)
    requires forall j :: 0 <= j < |rows| ==> !Passes(rows[j], name, trixieOnly)
    ensures Candidates(rows, name, trixieOnly) == []
    decreases |rows|
  {
    if |rows| > 0 {
      var init := rows[..|rows| - 1];
      assert forall j :: 0 <= j < |init| ==> init[j] == rows[j];
      NoCandidates(init, name, trixieOnly);
    }
  }

  /** Two rows of one name tied on stability and modification date: the fold keeps
      whichever comes first, so the "all" endpoint and a by-name query that returns
      the rows in the other order give different records. */
  lemma TiedRowsOrderMatters(a: Image, b: Image)
    requires a != b && a.name == b.name
    requires a.stable == b.stable && a.modifiedDate == b.modifiedDate
    ensures RecommendAll(Some([a, b]), false) == [a]
    ensures RecommendByName(Some([b, a]), false) == [b]
  {
    TiedAllKeepsFirst(a, b);
    TiedByNameKeepsFirst(b, a);
  }

  /** The "all" endpoint over two tied rows of one name emits the first. */
  lemma TiedAllKeepsFirst(a: Image, b: Image)
    requires a.name == b.name && !Replaces(b, a)
    ensures RecommendAll(Some([a, b]), false) == [a]
  {
    var rows := [a, b];
    PairFilters(a, b);
    PairChoose(a, b);
    assert [a.name][1..] == [];
    assert Emit(rows, [], false) == [];
    assert Emit(rows, [a.name], false) == [a];
  }

  /** The by-name endpoint over two tied rows of one name answers the first. */
  lemma TiedByNameKeepsFirst(a: Image, b: Image)
    requires a.name == b.name && !Replaces(b, a)
    ensures RecommendByName(Some([a, b]), false) == [a]
  {
    PairFilters(a, b);
    PairChoose(a, b);
  }

  /** Without the trixie filter, two rows of one name are one name and two candidates, in order. */
  lemma PairFilters(a: Image, b: Image)
    requires a.name == b.name
    ensures Names([a, b]) == [a.name]
    ensures Candidates([a, b], a.name, false) == [a, b]
    ensures TrixieFilter([a, b], false) == [a, b]
  {
    var rows := [a, b];
    assert rows[..|rows| - 1] == [a] && [a][..|[a]| - 1] == [];
    assert Names([a]) == [a.name];
    assert Candidates([a], a.name, false) == [a];
    assert TrixieFilter([a], false) == [a];
  }

  /** Of two candidates the fold keeps the first unless the second replaces it. */
  lemma PairChoose(a: Image, b: Image)
    requires !Replaces(b, a)
    ensures Choose([a, b]) == Some(a)
  {
    assert Fold([a, b], 0, 1) == 0;
  }

  /** The by-name endpoints answer the fold's choice among the name's candidates. */
  lemma ByNameChooses(rows: seq<Image>, name: string, trixieOnly: bool)
    requires exists j :: 0 <= j < |rows| && rows[j].name == name
    ensures var c := Choose(Candidates(rows, name, trixieOnly));
      RecommendByName(Some(OnName(rows, name)), trixieOnly) == if c.Some? then [c.value] else []
  {
    CandidatesSplit(rows, name, trixieOnly);
    var j :| 0 <= j < |rows| && rows[j].name == name;
    assert rows[j] in OnName(rows, name);
  }

  /** When the by-name query returns the name's rows in the order the "all" query
      listed them, the by-name endpoints answer exactly what the "all" endpoints
      answer for that name. */
  lemma ByNameAgreesWithAll(rows: seq<Image>, name: string, trixieOnly: bool)
    requires exists j :: 0 <= j < |rows| && rows[j].name == name
    ensures var all := RecommendAll(Some(rows), trixieOnly);
      RecommendByName(Some(OnName(rows, name)), trixieOnly) ==
        if name in NamesOf(all) then [all[IndexOf(NamesOf(all), name)]] else []
  {
    var all := RecommendAll(Some(rows), trixieOnly);
    ByNameChooses(rows, name, trixieOnly);
    if name in NamesOf(all) {
      AllAnswersChoice(rows, trixieOnly, IndexOf(NamesOf(all), name));
    } else {
      AllOmitsUnmatched(rows, name, trixieOnly);
      NoCandidates(rows, name, trixieOnly);
    }
  }

  /** Each record of the "all" answer is its name's choice. */
  lemma AllAnswersChoice(rows: seq<Image>, trixieOnly: bool, i: int)
    requires 0 <= i
    ensures var all := RecommendAll(Some(rows), trixieOnly);
      i < |all| ==> Choose(Candidates(rows, NamesOf(all)[i], trixieOnly)) == Some(all[i])
  {
  }

  /** A name missing from the "all" answer has no record that passes the filter. */
  lemma AllOmitsUnmatched(rows: seq<Image>, name: string, trixieOnly: bool)
    requires name !in NamesOf(RecommendAll(Some(rows), trixieOnly))
    ensures forall j :: 0 <= j < |rows| ==> !Passes(rows[j], name, trixieOnly)
  {
  }

  function IndexOf(names: seq<string>, name: string): (i: nat)
    requires name in names
    ensures i < |names| && names[i] == name
  {
    if names[0] == name then 0 else 1 + IndexOf(names[1..], name)
  }
}

=== FILE: schema.dfy ===
/**
 * The persisted image record (the `images` table) shared by the synchronisation
 * cycle, which creates records, and the recommendation resolver, which reads them.
 * Timestamps are integer milliseconds.
 */
module Schema {

  datatype Image = Image(
    name: string,
    url: string,
    urlTrixie: string,      // "" when the repository publishes no trixie channel
    modifiedDate: int,
    createdDate: int,
    tag: string,
    tagTrixie: string,
    releaseNotes: string,
    stable: bool,
    pinned: bool           // is_pinned_version
  )
}

=== FILE: tag_classifier.dfy ===
/**
 * Tag classification inside the synchronisation cycle: from the tag list found
 * for one repository, derive the primary image tag (first `latest-build-*` tag,
 * else `latest`), the trixie tag (first `trixie-latest-*` tag, else
 * `trixie-latest`) and the two pull URLs on the ghcr.io registry.
 */
module TagClassifier {
  import opened Optional

  const PinnedPrefix := "latest-build-"
  const TrixiePrefix := "trixie-latest-"
  const DefaultTag := "latest"
  const DefaultTrixieTag := "trixie-latest"
  const Registry := "ghcr.io/sdr-enthusiasts/"

  datatype Classification = Classification(
    tag: string,
    pinned: bool,
    trixieTag: string,
    foundTrixie: bool
  )

  /** Position i holds the first tag of the list that starts with prefix p (case-sensitive). */
  ghost predicate IsFirstWithPrefix(tags: seq<string>, p: string, i: int) {
    && 0 <= i < |tags|
    && p <= tags[i]
    && forall j :: 0 <= j < i ==> !(p <= tags[j])
  }

  /** The scan-and-break loop: the first tag starting with p, if any. */
  function FirstWithPrefix(tags: seq<string>, p: string): (r: Option<string>)
    ensures r.None? <==> forall j :: 0 <= j < |tags| ==> !(p <= tags[j])
    ensures r.Some? ==> exists i :: IsFirstWithPrefix(tags, p, i) && tags[i] == r.value
  {
    if |tags| == 0 then None
    else if p <= tags[0] then
      assert IsFirstWithPrefix(tags, p, 0);
      Some(tags[0])
    else
      var r := FirstWithPrefix(tags[1..], p);
      assert forall j :: 1 <= j < |tags| ==> tags[j] == tags[1..][j - 1];
      assert r.Some? ==> exists i :: IsFirstWithPrefix(tags, p, i) && tags[i] == r.value by {
        if r.Some? {
          var i :| IsFirstWithPrefix(tags[1..], p, i) && tags[1..][i] == r.value;
          assert IsFirstWithPrefix(tags, p, i + 1);
        }
      }
      r
  }

  function Classify(tags: seq<string>): (c: Classification)
    ensures c.pinned <==> exists i :: 0 <= i < |tags| && PinnedPrefix <= tags[i]
    ensures c.pinned ==> exists i :: IsFirstWithPrefix(tags, PinnedPrefix, i) && c.tag == tags[i]
    ensures !c.pinned ==> c.tag == DefaultTag
    ensures c.foundTrixie <==> exists i :: 0 <= i < |tags| && TrixiePrefix <= tags[i]
    ensures c.foundTrixie ==> exists i :: IsFirstWithPrefix(tags, TrixiePrefix, i) && c.trixieTag == tags[i]
    ensures !c.foundTrixie ==> c.trixieTag == DefaultTrixieTag
  {
    var pin := FirstWithPrefix(tags, PinnedPrefix);
    var trixie := FirstWithPrefix(tags, TrixiePrefix);
    Classification(
      if pin.Some? then pin.value else DefaultTag,
      pin.Some?,
      if trixie.Some? then trixie.value else DefaultTrixieTag,
      trixie.Some?)
  }

  /** `ghcr.io/sdr-enthusiasts/<name>:<tag>`: the registry reference of one tag. */
  function Url(name: string, tag: string): (u: string)
    ensures Registry + name + ":" <= u
    ensures u[|Registry| + |name| + 1..] == tag
  {
    Registry + name + ":" + tag
  }

  /** The tag a registry reference of repository `name` points at. */
  function TagOfUrl(name: string, u: string): string
    requires Registry + name + ":" <= u
  {
    u[|Registry| + |name| + 1..]
  }

  /** The trixie pull reference: empty exactly when no `trixie-latest-*` tag was found. */
  function TrixieUrl(name: string, c: Classification): (u: string)
    ensures u == "" <==> !c.foundTrixie
    ensures c.foundTrixie ==> Registry + name + ":" <= u && TagOfUrl(name, u) == c.trixieTag
  {
    if c.foundTrixie then Url(name, c.trixieTag) else ""
  }

  /** A pinned build tag wins over the floating `latest` that follows it. */
  lemma PinnedBuildExample()
    ensures Classify(["v1", "latest-build-42", "latest"]).tag == "latest-build-42"
    ensures Classify(["v1", "latest-build-42", "latest"]).pinned
  {
    var tags := ["v1", "latest-build-42", "latest"];
    assert !(PinnedPrefix <= tags[0]);
    assert PinnedPrefix <= tags[1];
  }

  /** Without any channel-specific tag the defaults apply and no trixie URL is formed. */
  lemma DefaultsExample(name: string)
    ensures Classify(["latest"]) == Classification(DefaultTag, false, DefaultTrixieTag, false)
    ensures TrixieUrl(name, Classify(["latest"])) == ""
  {
    assert !(PinnedPrefix <= "latest");
    assert !(TrixiePrefix <= "latest");
  }
}
